=== FILE: README.md ===
# La Esquina order lifecycle, modelled in Dafny

La Esquina is a three-role marketplace demo. Consumers order from stores, store operators manage their store and products, and couriers claim and deliver orders. A single Express service backs all three roles and keeps four JSON collections: users, stores, products and orders. This project models that service's handlers and the client-side logic of the three browser apps that call them. It then proves properties of each part and of the parts composed: what a courier can see and do, what a checkout stores, and what a store's toggle and accept button change on the server.

Modules, one per component:

- `Collections` (`collections.dfy`): JavaScript's `findIndex`, `find` and `filter` on `seq`, with lemmas on order and on pairwise properties.
- `Domain` (`domain.dfy`): the records (`User`, `Store`, `Product`, `OrderLine`, `Order`), the four status strings, JavaScript truthiness of nullable ids, and `getStatusText`.
- `Server` (`server.dfy`): login, store status, product listing and creation, and order creation, listing and status update with the claim check. Each handler is a pure function from the request fields and the loaded collection to `Handled(response, collection to save)`.
- `Cart` (`cart.dfy`): the consumer app's cart and checkout.
- `Courier` (`courier.dfy`): the delivery app's feeds, action buttons, detail view and status requests.
- `Dashboard` (`dashboard.dfy`): the store app's open/closed toggle, add-product form, order list and accept button.

Modelling conventions:

- Order statuses are free strings because the server stores any status it is sent. `Pending`, `Accepted`, `InProgress` and `Delivered` name the four the clients use.
- Nullable ids (`deliveryId`, `storeId`) are `Option<int>`. The JavaScript tests them for truthiness, so `Truthy` treats `None` and `Some(0)` alike.
- Money is integer cents.
- The `Date.now()` id and ISO `createdAt` of a new record are parameters of the handler.

Two properties of the composed system are worth reading:

- `Courier.DeliveredButtonNeverInMyOrders` and `Courier.DeliveredButtonNeverInDetail`: both courier views read `GET /orders/available`, which drops `in_progress` orders. So the "mark delivered" button is never rendered.
- `Dashboard.StoreAcceptHidesOrderFromCouriers`: the store's accept names no courier. The order becomes accepted with no courier, and right after the accept it is in no courier's feed.

The model follows the code where the code is looser than the path the apps' buttons walk (pending, then accepted by a courier, then in progress, then delivered):

- `Server.BareStatusChangeAlwaysApplies`: no transition is checked, so any status can follow any status.
- `Dashboard.StoreAcceptAlwaysApplies`: an order can become accepted without naming a courier.
- `Server.CourierReassignedOutsideClaim`: the claim check guards only requests for `accepted`. Any other status sent with a truthy courier id replaces the courier that holds the order.

`getStatusText` occurs three times with the same table, at consumer-app/app.js:394-402, store-app/app.js:381-389 and delivery-app/app.js:379-387. `Domain.StatusText` models all three.

## Model

| member | source | states |
|---|---|---|
| `Domain.StatusText` | delivery-app/app.js:379-387 | The four statuses get their labels, in lifecycle order. The text equals the status exactly when the status is not one of the four. |
| `Server.IndexOfLogin` | server/index.js:36 | Finds the first user matching on email, password and role together. `None` exactly when no user matches on all three. |
| `Server.Login` | server/index.js:32-58 | Succeeds iff some user matches on email, password and role together. On success the response describes the first such user, has no password field, and carries `storeId` exactly when the user's is truthy. Otherwise the answer is 401. The user collection is only read. |
| `Server.IndexOfStore` | server/index.js:71 | Finds the first store with the id. `None` exactly when no store has it. |
| `Server.SetStoreStatus` | server/index.js:66-79 | A missing id gives 404 and the collection unchanged. Otherwise only `isOpen` of the first store with that id changes, to the requested value. The response is that updated store. |
| `Server.ListProducts` | server/index.js:82-87 | Contains a product iff the product is in the collection and belongs to the store. The listing keeps collection order, and each such product occurs as often as in the collection. |
| `Server.CreateProduct` | server/index.js:89-106 | Always succeeds. Appends exactly one product, built from the request fields with the given id and time. Existing products are untouched. |
| `Server.CreatedProductIsListed` | server/index.js:82-106 | After a creation, the product's own store listing gains it at the end. Every other store's listing is unchanged. |
| `Server.IndexOfOrder` | server/index.js:149 | Finds the first order with the id. `None` exactly when no order has it. |
| `Server.CreateOrder` | server/index.js:109-129 | Appends exactly one order. The lines, total, address and payment method are stored as sent. Status is `pending`, `deliveryId` is null, and existing orders are untouched. |
| `Server.ListByUser` | server/index.js:131-136 | Contains an order iff the order is in the collection and its `userId` is the one asked for. The list keeps collection order, and each such order occurs as often as in the collection. |
| `Server.ListAvailable` | server/index.js:138-142 | Contains an order iff the order is in the collection and its status is `pending` or `accepted`. The feed keeps collection order, and each such order occurs as often as in the collection. |
| `Server.UpdateStatus` | server/index.js:144-170 | Unknown id: 404, collection unchanged. Claim conflict (an `accepted` request with a truthy `deliveryId` against an order held by a different truthy courier): 400, collection unchanged. Otherwise the status becomes the requested one whatever it was before, and `deliveryId` is overwritten only by a truthy one. No other field changes, and no other order changes. |
| `Server.CreatedOrderIsListed` | server/index.js:109-136 | After creation, the consumer's list gains the new order at the end. Other consumers' lists are unchanged. |
| `Server.CreatedOrderIsAvailable` | server/index.js:109-142 | After creation, the available feed gains the new order at the end. |
| `Server.RivalClaimIsRefused` | server/index.js:154-166 | On an unclaimed order, courier A's claim succeeds and records A. A different courier B's later claim gets 400, and the order stays with A. |
| `Server.ReclaimIsIdempotent` | server/index.js:154-166 | A courier re-claiming an accepted order it holds succeeds and changes nothing. |
| `Server.BareStatusChangeAlwaysApplies` | server/index.js:154-164 | A status change with no `deliveryId` succeeds on every existing order, whatever its status (including jumps such as pending to delivered). It keeps the courier. |
| `Server.ConflictOnlyForAnotherCourier` | server/index.js:154-159 | The handler answers 400 exactly when the order exists, the request is `accepted` with a truthy courier, and the order has a different truthy courier. |
| `Server.CourierReassignedOutsideClaim` | server/index.js:154-164 | A request for any status other than `accepted` that names a truthy courier succeeds on an existing order and records that courier, whoever held the order. |
| `Cart.ClampAtZero` | consumer-app/app.js:218 | `Math.max(0, n)`: the result is at least `n` and at least 0, and is either 0 or `n`. |
| `Cart.IndexOfItem` | consumer-app/app.js:223 | Finds the first cart entry for the product. `None` exactly when the product's id is not among the cart's ids. |
| `Cart.RemoveItem` | consumer-app/app.js:225 | Keeps exactly the entries for other products, in cart order, each as often as in the cart. The removed id no longer occurs. |
| `Cart.FindProductById` | consumer-app/app.js:244-250 | Returns a product iff the store's products are loaded and one has the id. The result is the first loaded product with that id. |
| `Cart.UpdateQuantity` | consumer-app/app.js:215-242 | The displayed counter becomes max(0, counter + change), so it is never negative. At 0 the product leaves the cart. Otherwise an existing entry takes the counter's value. A new product is appended only if it is among the loaded products, and the cart is unchanged if it is not. |
| `Cart.UpdateCartQuantity` | consumer-app/app.js:288-298 | A product not in the cart leaves the cart unchanged. The cart's ids never grow. An existing entry's quantity becomes max(0, quantity + change), and the entry is removed at 0. |
| `Cart.SetQuantityKeepsWellFormed` | consumer-app/app.js:228 | Setting a positive quantity on one entry keeps ids distinct and quantities positive. |
| `Cart.RemoveKeepsWellFormed` | consumer-app/app.js:225 | Filtering out one product keeps ids distinct and quantities positive. |
| `Cart.AppendKeepsWellFormed` | consumer-app/app.js:233-236 | Appending a product not yet in the cart, with a positive quantity, keeps ids distinct and quantities positive. |
| `Cart.UpdateQuantityKeepsWellFormed` | consumer-app/app.js:223-238 | `updateQuantity` preserves the cart invariant: distinct product ids, every quantity at least 1. |
| `Cart.UpdateCartQuantityKeepsWellFormed` | consumer-app/app.js:289-295 | `updateCartQuantity` preserves the same invariant. |
| `Cart.CartCount` | consumer-app/app.js:253 | The badge is the sum of the quantities: 0 for an empty cart, and with no negative quantity at least any single entry's quantity. |
| `Cart.CheckoutDisabled` | consumer-app/app.js:257 | Checkout is disabled when the badge shows 0. With positive quantities that is exactly when the cart is empty. |
| `Cart.CountBoundsEntries` | consumer-app/app.js:252-258 | With positive quantities, the badge count is at least the number of entries. So checkout is disabled iff the cart is empty. |
| `Cart.CountAfterSet` | consumer-app/app.js:228 | Setting one entry's quantity changes the count by the difference. |
| `Cart.CountAfterRemove` | consumer-app/app.js:293 | In a cart with distinct product ids, removing an entry's product lowers the count by exactly its quantity. |
| `Collections.FilterKeepsAll` | consumer-app/app.js:293 | A filter that every entry passes returns the cart unchanged. |
| `Cart.CountAfterCartUpdate` | consumer-app/app.js:288-298 | On a well-formed cart, the badge count after `updateCartQuantity` moves by max(0, q + change) - q, where q is the entry's old quantity. |
| `Cart.CartTotal` | consumer-app/app.js:284 | The sum of price times quantity shown on the cart screen and sent as the order's total (line 334). It is 0 for an empty cart and never negative when no price or quantity is. |
| `Cart.Snapshot` | consumer-app/app.js:328-333 | One order line per cart entry, in cart order, carrying that entry's id, name, price and quantity. |
| `Cart.SnapshotTotal` | consumer-app/app.js:328-334 | The sum of price times quantity over the snapshot equals the cart's total. |
| `Cart.PlaceOrder` | consumer-app/app.js:315-337 | Nothing is sent iff the address or the payment method is empty, or no store is current. A sent request carries the user, the store, the cart's snapshot and a total equal to the sum over that snapshot. |
| `Cart.AfterOrder` | consumer-app/app.js:349-356 | A successful answer empties the cart, which disables checkout. A failed one keeps the cart. |
| `Cart.CheckoutRoundTrip` | consumer-app/app.js:325-351 | A submitted checkout, stored by the server, appears last in the consumer's order list. It holds the cart's snapshot, is pending and unclaimed, and its total equals the sum over its lines. The cart ends empty. |
| `Courier.AvailableFeed` | delivery-app/app.js:126-138 | Keeps an order iff it is `pending`, or `accepted` with this courier as `deliveryId`. Feed order and multiplicity are kept. |
| `Courier.MyOrders` | delivery-app/app.js:140-149 | Keeps exactly the orders whose `deliveryId` is this courier. Feed order and multiplicity are kept. |
| `Courier.ActionFor` | delivery-app/app.js:253-264 | The second and third lifecycle statuses get a button to the next status. The last one gets the completed badge. Every other status gets nothing. |
| `Courier.ClaimRequest` | delivery-app/app.js:273-276 | The claim asks for `accepted` with the courier's id. It meets the claim check on exactly the orders held by another truthy courier, and only when its own id is truthy. |
| `Courier.AdvanceRequest` | delivery-app/app.js:301-303 | An advance sends the requested status and no courier, so it meets the claim check on no order. |
| `Courier.ActionFollowsLifecycle` | delivery-app/app.js:253-264 | A next-step button is offered exactly for `accepted` and `in_progress`, and it moves the order one step along the lifecycle. `delivered` gets the completed badge. Any other status gets nothing. |
| `Courier.ClaimAgainstServer` | delivery-app/app.js:266-277 | A claim sends `accepted` with the courier's id. The server refuses it exactly when its own id is truthy and another truthy courier holds the order. Otherwise it succeeds: the order becomes accepted and records the courier, except that the falsy id 0 leaves the stored courier unchanged. |
| `Courier.AdvanceNeverConflicts` | delivery-app/app.js:294-304 | An advance sends only the status, so it never meets the claim check. On an existing order it succeeds and keeps the courier. |
| `Courier.ClaimedOrderIsMine` | delivery-app/app.js:273-276 | After a won claim by a courier with a truthy id, the order is in the courier's "my orders" feed and in its available feed. |
| `Courier.MyOrdersAreActive` | delivery-app/app.js:144 | Composed with the server feed, every order in "my orders" is in the collection, is pending or accepted, and is held by this courier. |
| `Courier.DeliveredButtonNeverInMyOrders` | delivery-app/app.js:216-264 | Over the server feed, each "my orders" entry gets either the "mark in progress" button or no button. It never gets "mark delivered". |
| `Courier.AvailableFeedOverServer` | delivery-app/app.js:126-133 | The courier's available list over the server feed is a single filter of the whole collection, so collection order is kept. |
| `Courier.ViewOrderDetail` | delivery-app/app.js:321-376 | Reports not found iff no feed order has the id. Otherwise it shows the first feed order with that id, with action buttons iff the order's `deliveryId` is this courier, and those buttons are the status's action. |
| `Courier.DeliveredButtonNeverInDetail` | delivery-app/app.js:321-376 | Over the server feed, the detail view never offers "mark delivered". |
| `Dashboard.ToggleRequest` | store-app/app.js:184-199 | No request iff no store is loaded or its id is falsy. Otherwise the request names the store and asks for the opposite of the displayed `isOpen`. |
| `Dashboard.AdoptToggle` | store-app/app.js:203-205 | On success the dashboard takes `isOpen` from the server's answer and keeps its other fields. On failure it keeps its store. |
| `Dashboard.PressToggle` | store-app/app.js:184-205 | One toggle sets the server's `isOpen` to the opposite of the dashboard's, and the dashboard adopts that answer. The server's value flips only when the two agreed. No other store changes. A falsy or unknown store id changes nothing. |
| `Dashboard.ToggleTwiceRestores` | store-app/app.js:197-204 | Starting in sync with the server, one toggle stays in sync, and two toggles restore both the dashboard and the store collection. |
| `Dashboard.AddProduct` | store-app/app.js:251-280 | Refused iff the name is empty or the price is unreadable or not positive. Then no request is made if no store is loaded. Otherwise the form is sent with empty description and image replaced by the fixed defaults. |
| `Dashboard.AddedProductIsListed` | store-app/app.js:251-280 | A product sent from the form lands at the end of its store's listing, with a non-empty name, description and image and a positive price. |
| `Dashboard.StoreOrders` | store-app/app.js:311-321 | With a current store, keeps exactly the feed's orders for that store, in feed order and as often as they occur. Without one, an empty feed renders empty, and a non-empty feed throws, leaving the list unrendered. |
| `Dashboard.AcceptOffered` | store-app/app.js:346 | The accept button is offered exactly on orders at the first lifecycle status, `pending`. |
| `Dashboard.StoreAcceptRequest` | store-app/app.js:362-364 | The store's accept asks for `accepted` and names no courier, so it meets the claim check on no order. |
| `Dashboard.StoreSeesItsOpenOrders` | store-app/app.js:311-317 | Over the server feed, the store sees exactly its pending and accepted orders. |
| `Dashboard.StoreAcceptAlwaysApplies` | store-app/app.js:355-365 | The store's accept names no courier. On an existing order it always succeeds, sets `accepted` and keeps the order's `deliveryId`. |
| `Dashboard.StoreAcceptHidesOrderFromCouriers` | store-app/app.js:346-365 | A pending, unclaimed order that the store accepts is in every courier's available feed before, and in no courier's feeds after. |

## Left out

- Express routing, CORS, static files and `sendFile` (server/index.js:1-15, 172-192): plumbing, not logic. Each handler is a function of its request fields and collection.
- `loadData`/`saveData` file I/O and the fallback to an empty array when a file cannot be read (server/index.js:18-29): I/O. Collections are passed in and returned.
- `GET /stores` (server/index.js:61-64): it returns the collection as loaded.
- Concurrency: the model is sequential. It does not capture the lost update between two overlapping load-modify-save cycles, and so does not capture a double claim.
- `Date.now()` ids and ISO timestamps are parameters. Id collisions are not considered.
- Floating point: prices and totals are integer cents. `parseFloat`/`parseInt`/`toFixed` are not modelled. Path parameters are already integers, so a non-numeric `:id` (NaN, which matches nothing) is not represented.
- Server.CreateProduct: `image || ''` is modelled on a string field, where it is the identity. The case of an absent or null `image` is not represented.
- Server.Login: the role is the three-case `Role`, so a request whose `role` string is missing or unknown (always 401 in the handler) cannot be expressed.
- Domain.StatusText: JavaScript object lookup also finds inherited keys such as `toString`, so such a status would yield a function rather than the string. Statuses are modelled as plain strings.
- Cart.FindProductById: the consumer app's `selectStore` and product loading are not modelled. The loaded products are a parameter.
- All DOM rendering, `alert`/`confirm`, `localStorage` sessions, screen navigation, `fetch`/`async` and `Promise.all`. Client logins differ only in the fixed role they send, so they are not modelled apart from `Server.Login`.
- The `editProduct`/`deleteProduct` stubs (store-app/app.js:297-309) show an alert and do nothing. public/index.js is navigation only, and the root index.js is an unrelated server.

=== FILE: cart.dfy ===
/** The consumer app's cart: a sequence of products with quantities, changed
    by the +/- buttons on a store's product grid and on the cart screen, and
    turned into an order at checkout. */
module Cart {
  import opened Collections
  import opened Domain
  import opened Server

  /** A cart entry: every field of the product plus `quantity`. Its id is `product.id`. */
  datatype CartItem = CartItem(product: Product, quantity: int)

  type Items = seq<CartItem>

  /** `Math.max(0, n)`. */
  function ClampAtZero(n: int): (r: nat)
    ensures r >= n && (r == 0 || r == n)
  {
    if n < 0 then 0 else n
  }

  predicate DifferentProducts(a: CartItem, b: CartItem) {
    a.product.id != b.product.id
  }

  /** The cart invariant: no product twice, and no entry with quantity below one. */
  ghost predicate WellFormed(cart: Items) {
    && Pairwise(cart, DifferentProducts)
    && forall x | x in cart :: x.quantity >= 1
  }

  function IdsOf(cart: Items): set<Id> {
    set x | x in cart :: x.product.id
  }

  /** The first entry for a product (`this.cart.find(item => item.id === productId)`). */
  function IndexOfItem(cart: Items, productId: Id): (r: Option<nat>)
    ensures r.Some? ==> r.value < |cart| && cart[r.value].product.id == productId
    ensures r.Some? ==> forall j :: 0 <= j < r.value ==> cart[j].product.id != productId
    ensures r.None? <==> productId !in IdsOf(cart)
  {
    FindIndex(cart, (x: CartItem) => x.product.id == productId)
  }

  /** `this.cart.filter(item => item.id !== productId)`. */
  function RemoveItem(cart: Items, productId: Id): (r: Items)
    ensures forall x | x in r :: x in cart && x.product.id != productId
    ensures forall x | x in cart && x.product.id != productId :: x in r
    ensures productId !in IdsOf(r)
    ensures SubsequenceOf(r, cart)
    ensures forall x | x in cart :: multiset(r)[x] == if x.product.id != productId then multiset(cart)[x] else 0
  {
    FilterKeepsOrder(cart, (x: CartItem) => x.product.id != productId);
    Filter(cart, (x: CartItem) => x.product.id != productId)
  }

  /** `findProductById`: the first loaded product with this id. `None` for
      `loaded` means the current store or its product list is not loaded. */
  function FindProductById(loaded: Option<seq<Product>>, productId: Id): (r: Option<Product>)
    ensures r.Some? <==> loaded.Some? && exists j :: 0 <= j < |loaded.value| && loaded.value[j].id == productId
    ensures r.Some? ==> r.value in loaded.value && r.value.id == productId
    ensures r.Some? ==> exists k :: 0 <= k < |loaded.value| && loaded.value[k] == r.value
                                    && forall j :: 0 <= j < k ==> loaded.value[j].id != productId
  {
    if loaded.None? then None else Find(loaded.value, (p: Product) => p.id == productId)
  }

  /** The product grid's counter for one product, and the cart. */
  datatype Tally = Tally(shown: nat, cart: Items)

  /** `updateQuantity` (the product grid's +/-): the displayed counter moves
      by `change` but never below zero. At zero the product leaves the cart.
      Otherwise an entry already in the cart takes the counter's value, and
      a product not yet in it is added only if it is among the loaded products. */
  function UpdateQuantity(cart: Items, shown: int, productId: Id, change: int, loaded: Option<seq<Product>>)
    : (r: Tally)
    ensures r.shown >= shown + change && (r.shown == 0 || r.shown == shown + change)
    ensures r.shown == 0 ==> r.cart == RemoveItem(cart, productId)
    ensures r.shown > 0 && IndexOfItem(cart, productId).Some? ==>
      var i := IndexOfItem(cart, productId).value;
      r.cart == cart[i := CartItem(cart[i].product, r.shown)]
    ensures r.shown > 0 && IndexOfItem(cart, productId).None? ==>
      r.cart == (match FindProductById(loaded, productId)
                 case Some(p) => cart + [CartItem(p, r.shown)]
                 case None => cart)
  {
    var q := ClampAtZero(shown + change);
    if q == 0 then Tally(0, RemoveItem(cart, productId))
    else
      match IndexOfItem(cart, productId)
      case Some(i) => Tally(q, cart[i := cart[i].(quantity := q)])
      case None =>
        match FindProductById(loaded, productId)
        case Some(p) => Tally(q, cart + [CartItem(p, q)])
        case None => Tally(q, cart)
  }

  /** `updateCartQuantity` (the cart screen's +/-): adjusts the entry's own
      quantity, clamped at zero, and drops the entry at zero. A product not in
      the cart leaves it unchanged: this button never adds anything. */
  function UpdateCartQuantity(cart: Items, productId: Id, change: int): (r: Items)
    ensures IndexOfItem(cart, productId).None? ==> r == cart
    ensures IdsOf(r) <= IdsOf(cart)
    ensures IndexOfItem(cart, productId).Some? ==>
      var i := IndexOfItem(cart, productId).value;
      var q := ClampAtZero(cart[i].quantity + change);
      && (q == 0 ==> r == RemoveItem(cart, productId))
      && (q > 0 ==> r == cart[i := CartItem(cart[i].product, q)])
  {
    match IndexOfItem(cart, productId)
    case None => cart
    case Some(i) =>
      var q := ClampAtZero(cart[i].quantity + change);
      if q == 0 then RemoveItem(cart, productId)
      else
        var r := cart[i := cart[i].(quantity := q)];
        assert IdsOf(r) <= IdsOf(cart) by {
          forall id | id in IdsOf(r) ensures id in IdsOf(cart) {
            var x :| x in r && x.product.id == id;
            var k :| 0 <= k < |r| && r[k] == x;
            assert cart[k].product.id == id;
          }
        }
        r
  }

  /* ---------------- The cart invariant ---------------- */

  /** Replacing one entry's quantity by a positive one keeps the cart well formed. */
  lemma SetQuantityKeepsWellFormed(cart: Items, i: nat, q: int)
    requires WellFormed(cart) && i < |cart| && q >= 1
    ensures WellFormed(cart[i := CartItem(cart[i].product, q)])
  {
  }

  /** Removing a product keeps the cart well formed. */
  lemma RemoveKeepsWellFormed(cart: Items, productId: Id)
    requires WellFormed(cart)
    ensures WellFormed(RemoveItem(cart, productId))
  {
    FilterPairwise(cart, (x: CartItem) => x.product.id != productId, DifferentProducts);
  }

  /** Appending a product not yet in the cart, with a positive quantity, keeps it well formed. */
  lemma AppendKeepsWellFormed(cart: Items, item: CartItem)
    requires WellFormed(cart) && item.product.id !in IdsOf(cart) && item.quantity >= 1
    ensures WellFormed(cart + [item])
  {
  }

  /** `updateQuantity` keeps product ids distinct and quantities positive. */
  lemma UpdateQuantityKeepsWellFormed(cart: Items, shown: int, productId: Id, change: int,
                                      loaded: Option<seq<Product>>)
    requires WellFormed(cart)
    ensures WellFormed(UpdateQuantity(cart, shown, productId, change, loaded).cart)
  {
    var r := UpdateQuantity(cart, shown, productId, change, loaded);
    if r.shown == 0 {
      RemoveKeepsWellFormed(cart, productId);
    } else if IndexOfItem(cart, productId).Some? {
      SetQuantityKeepsWellFormed(cart, IndexOfItem(cart, productId).value, r.shown);
    } else if FindProductById(loaded, productId).Some? {
      AppendKeepsWellFormed(cart, CartItem(FindProductById(loaded, productId).value, r.shown));
    }
  }

  /** `updateCartQuantity` keeps product ids distinct and quantities positive. */
  lemma UpdateCartQuantityKeepsWellFormed(cart: Items, productId: Id, change: int)
    requires WellFormed(cart)
    ensures WellFormed(UpdateCartQuantity(cart, productId, change))
  {
    match IndexOfItem(cart, productId)
    case None =>
    case Some(i) =>
      var q := ClampAtZero(cart[i].quantity + change);
      if q == 0 {
        RemoveKeepsWellFormed(cart, productId);
      } else {
        SetQuantityKeepsWellFormed(cart, i, q);
      }
  }

  /* ---------------- Count, total and checkout ---------------- */

  /** `updateCartCount`: the badge shows the sum of the quantities. With no
      negative quantity every entry's quantity is part of it. */
  function CartCount(cart: Items): (r: int)
    ensures cart == [] ==> r == 0
    ensures (forall x | x in cart :: x.quantity >= 0) ==> forall k :: 0 <= k < |cart| ==> r >= cart[k].quantity
    decreases |cart|
  {
    if |cart| == 0 then 0 else cart[0].quantity + CartCount(cart[1..])
  }

  /** The checkout button is disabled exactly when the badge shows 0; with
      positive quantities, that is exactly when the cart is empty. */
  function CheckoutDisabled(cart: Items): (r: bool)
    ensures (forall x | x in cart :: x.quantity >= 1) ==> (r <==> cart == [])
  {
    CartCount(cart) == 0
  }

  /** On a well-formed cart the badge is at least the number of entries, so
      checkout is disabled exactly when the cart is empty. */
  lemma {:induction false} CountBoundsEntries(cart: Items)
    requires forall x | x in cart :: x.quantity >= 1
    ensures CartCount(cart) >= |cart|
    ensures CheckoutDisabled(cart) <==> cart == []
    decreases |cart|
  {
    if |cart| != 0 {
      assert cart[0] in cart;
      assert forall x | x in cart[1..] :: x in cart;
      CountBoundsEntries(cart[1..]);
    }
  }

  /** Setting one entry's quantity moves the count by the difference. */
  lemma {:induction false} CountAfterSet(cart: Items, i: nat, q: int)
    requires i < |cart|
    ensures CartCount(cart[i := CartItem(cart[i].product, q)]) == CartCount(cart) - cart[i].quantity + q
    decreases |cart|
  {
    var r := cart[i := CartItem(cart[i].product, q)];
    if i == 0 {
      assert r[1..] == cart[1..];
    } else {
      assert r[1..] == cart[1..][i - 1 := CartItem(cart[i].product, q)];
      CountAfterSet(cart[1..], i - 1, q);
    }
  }

  /** In a cart with distinct product ids, removing an entry's product takes
      exactly its quantity off the count. */
  lemma {:induction false} CountAfterRemove(cart: Items, i: nat)
    requires i < |cart| && Pairwise(cart, DifferentProducts)
    ensures CartCount(RemoveItem(cart, cart[i].product.id)) == CartCount(cart) - cart[i].quantity
    decreases |cart|
  {
    var id := cart[i].product.id;
    var p := (x: CartItem) => x.product.id != id;
    PairwiseTail(cart, DifferentProducts);
    if i == 0 {
      assert Filter(cart[1..], p) == cart[1..] by {
        forall k | 0 <= k < |cart[1..]| ensures p(cart[1..][k]) {
          assert DifferentProducts(cart[0], cart[k + 1]);
        }
        FilterKeepsAll(cart[1..], p);
      }
    } else {
      assert DifferentProducts(cart[0], cart[i]);
      assert cart[1..][i - 1] == cart[i];
      CountAfterRemove(cart[1..], i - 1);
    }
  }

  /** On the cart screen the badge moves by exactly the change the entry's
      quantity saw: `change` itself, unless the clamp at zero cut it short. */
  lemma CountAfterCartUpdate(cart: Items, productId: Id, change: int)
    requires WellFormed(cart) && IndexOfItem(cart, productId).Some?
    ensures var q := cart[IndexOfItem(cart, productId).value].quantity;
            CartCount(UpdateCartQuantity(cart, productId, change)) == CartCount(cart) - q + ClampAtZero(q + change)
  {
    var i := IndexOfItem(cart, productId).value;
    var q := ClampAtZero(cart[i].quantity + change);
    if q == 0 {
      CountAfterRemove(cart, i);
    } else {
      CountAfterSet(cart, i, q);
    }
  }

  /** The cart screen's total, also sent as the order's `total`: the sum of
      price times quantity. It is never negative when no price or quantity is. */
  function CartTotal(cart: Items): (r: Cents)
    ensures cart == [] ==> r == 0
    ensures (forall x | x in cart :: x.product.price >= 0 && x.quantity >= 0) ==> r >= 0
    decreases |cart|
  {
    if |cart| == 0 then 0 else cart[0].product.price * cart[0].quantity + CartTotal(cart[1..])
  }

  function LineOf(x: CartItem): OrderLine {
    OrderLine(x.product.id, x.product.name, x.product.price, x.quantity)
  }

  /** The order's lines: each cart entry projected to id, name, price and quantity, in cart order. */
  function Snapshot(cart: Items): (lines: seq<OrderLine>)
    ensures |lines| == |cart|
    ensures forall k :: 0 <= k < |cart| ==>
              lines[k].id == cart[k].product.id && lines[k].name == cart[k].product.name
              && lines[k].price == cart[k].product.price && lines[k].quantity == cart[k].quantity
    decreases |cart|
  {
    if |cart| == 0 then [] else [LineOf(cart[0])] + Snapshot(cart[1..])
  }

  /** The snapshot's total is the cart's total. */
  lemma {:induction false} SnapshotTotal(cart: Items)
    ensures LineTotal(Snapshot(cart)) == CartTotal(cart)
    decreases |cart|
  {
    if |cart| != 0 {
      assert Snapshot(cart)[1..] == Snapshot(cart[1..]);
      SnapshotTotal(cart[1..]);
    }
  }

  /** What the checkout button does with the form. */
  datatype Checkout = MissingFields | NoStore | Submit(request: OrderRequest)

  /** `placeOrder`: an empty address or payment method sends nothing. Without
      a current store the request cannot be built (the app's `TypeError`).
      Otherwise the body carries the cart's snapshot and its total. */
  function PlaceOrder(cart: Items, userId: Id, currentStore: Option<Id>, address: string, paymentMethod: string)
    : (r: Checkout)
    ensures r.MissingFields? <==> address == "" || paymentMethod == ""
    ensures r.NoStore? <==> address != "" && paymentMethod != "" && currentStore.None?
    ensures r.Submit? ==>
      && r.request.userId == userId && currentStore == Some(r.request.storeId)
      && r.request.address == address && r.request.paymentMethod == paymentMethod
      && r.request.products == Snapshot(cart)
      && r.request.total == LineTotal(r.request.products)
  {
    if address == "" || paymentMethod == "" then MissingFields
    else if currentStore.None? then NoStore
    else
      SnapshotTotal(cart);
      Submit(OrderRequest(userId, currentStore.value, Snapshot(cart), CartTotal(cart), address, paymentMethod))
  }

  /** The cart after the server answers an order: emptied on success, kept otherwise. */
  function AfterOrder(cart: Items, response: Response<Order>): (r: Items)
    ensures response.Ok? ==> r == [] && CheckoutDisabled(r)
    ensures response.Fail? ==> r == cart
  {
    if response.Ok? then [] else cart
  }

  /** Checkout end to end: a submitted order is stored pending and unclaimed,
      appears last in the consumer's list with the cart's snapshot, its total
      is the sum over that snapshot, and the cart is left empty. */
  lemma CheckoutRoundTrip(cart: Items, userId: Id, currentStore: Option<Id>, address: string,
                          paymentMethod: string, orders: seq<Order>, id: Id, createdAt: string)
    requires PlaceOrder(cart, userId, currentStore, address, paymentMethod).Submit?
    ensures var req := PlaceOrder(cart, userId, currentStore, address, paymentMethod).request;
            var r := CreateOrder(orders, req, id, createdAt);
            var o := r.response.value;
            && ListByUser(r.state, userId) == ListByUser(orders, userId) + [o]
            && o.products == Snapshot(cart) && TotalConsistent(o)
            && o.status == Pending && o.deliveryId == None
            && AfterOrder(cart, r.response) == []
  {
    var req := PlaceOrder(cart, userId, currentStore, address, paymentMethod).request;
    CreatedOrderIsListed(orders, req, id, createdAt, userId);
  }
}

=== FILE: collections.dfy ===
/** Sequence helpers shared by the server and the three clients. They model
    JavaScript's `Array.prototype.findIndex`, `find` and `filter` on `seq`. */
module Collections {

  /** `None` plays the part of JavaScript's `null`/`undefined`. */
  datatype Option<+T> = None | Some(value: T)

  /** `findIndex`: the position of the first element satisfying `p`;
      `None` stands for the `-1` JavaScript returns when nothing matches. */
  function FindIndex<T>(s: seq<T>, p: T -> bool): (r: Option<nat>)
    ensures r.Some? ==> r.value < |s| && p(s[r.value])
    ensures r.Some? ==> forall j :: 0 <= j < r.value ==> !p(s[j])
    ensures r.None? <==> forall j :: 0 <= j < |s| ==> !p(s[j])
    decreases |s|
  {
    if |s| == 0 then None
    else if p(s[0]) then Some(0)
    else
      match FindIndex(s[1..], p)
      case None => None
      case Some(k) => Some(k + 1)
  }

  /** `find`: the element at `FindIndex`, or `None` for `undefined`. */
  function Find<T>(s: seq<T>, p: T -> bool): (r: Option<T>)
    ensures r.Some? <==> exists j :: 0 <= j < |s| && p(s[j])
    ensures r.Some? ==> r.value in s && p(r.value)
    ensures r.Some? ==> FindIndex(s, p).Some? && r.value == s[FindIndex(s, p).value]
  {
    match FindIndex(s, p)
    case None => None
    case Some(i) => Some(s[i])
  }

  /** `r` is `s` with some elements left out and the others kept in their order. */
  ghost predicate SubsequenceOf<T>(r: seq<T>, s: seq<T>)
    decreases |s|
  {
    |r| == 0 || (|s| > 0 && ((r[0] == s[0] && SubsequenceOf(r[1..], s[1..])) || SubsequenceOf(r, s[1..])))
  }

  /** `filter`: the elements satisfying `p`. `FilterKeepsOrder` adds that
      they keep their original order and multiplicity. */
  function Filter<T>(s: seq<T>, p: T -> bool): (r: seq<T>)
    ensures |r| <= |s|
    ensures forall x | x in r :: x in s && p(x)
    ensures forall x | x in s && p(x) :: x in r
    decreases |s|
  {
    if |s| == 0 then []
    else if p(s[0]) then [s[0]] + Filter(s[1..], p)
    else Filter(s[1..], p)
  }

  /** `Filter` keeps the chosen elements in their original order, each as
      often as it occurs in `s`, and drops every other element. */
  lemma {:induction false} FilterKeepsOrder<T>(s: seq<T>, p: T -> bool)
    ensures SubsequenceOf(Filter(s, p), s)
    ensures forall x | x in s :: multiset(Filter(s, p))[x] == if p(x) then multiset(s)[x] else 0
    decreases |s|
  {
    if |s| != 0 {
      FilterKeepsOrder(s[1..], p);
      assert s == [s[0]] + s[1..];
      if p(s[0]) {
        assert ([s[0]] + Filter(s[1..], p))[1..] == Filter(s[1..], p);
      }
    }
  }

  /** Every ordered pair of positions is related by `rel`. */
  ghost predicate Pairwise<T>(s: seq<T>, rel: (T, T) -> bool) {
    forall i, j :: 0 <= i < j < |s| ==> rel(s[i], s[j])
  }

  /** Filtering distributes over concatenation, so it keeps collection order. */
  lemma {:induction false} FilterConcat<T>(a: seq<T>, b: seq<T>, p: T -> bool)
    ensures Filter(a + b, p) == Filter(a, p) + Filter(b, p)
    decreases |a|
  {
    if |a| == 0 {
      assert a + b == b;
    } else {
      assert (a + b)[0] == a[0];
      assert (a + b)[1..] == a[1..] + b;
      FilterConcat(a[1..], b, p);
    }
  }

  /** A filter that every element passes is the identity. */
  lemma {:induction false} FilterKeepsAll<T>(s: seq<T>, p: T -> bool)
    requires forall k :: 0 <= k < |s| ==> p(s[k])
    ensures Filter(s, p) == s
    decreases |s|
  {
    if |s| != 0 {
      assert p(s[0]);
      FilterKeepsAll(s[1..], p);
    }
  }

  /** Filtering twice is filtering once by the conjunction. */
  lemma {:induction false} FilterTwice<T>(s: seq<T>, p: T -> bool, q: T -> bool, both: T -> bool)
    requires forall x | x in s :: both(x) == (p(x) && q(x))
    ensures Filter(Filter(s, p), q) == Filter(s, both)
    decreases |s|
  {
    if |s| != 0 {
      FilterTwice(s[1..], p, q, both);
      if p(s[0]) {
        assert Filter(s, p) == [s[0]] + Filter(s[1..], p);
        assert Filter(s, p)[0] == s[0];
        assert Filter(s, p)[1..] == Filter(s[1..], p);
      }
    }
  }

  /** The tail of a pairwise-related sequence is pairwise related, and its
      head is related to every later element. */
  lemma PairwiseTail<T>(s: seq<T>, rel: (T, T) -> bool)
    requires |s| > 0 && Pairwise(s, rel)
    ensures Pairwise(s[1..], rel)
    ensures forall y | y in s[1..] :: rel(s[0], y)
  {
    forall i, j | 0 <= i < j < |s[1..]|
      ensures rel(s[1..][i], s[1..][j])
    {
      assert s[1..][i] == s[i + 1] && s[1..][j] == s[j + 1];
    }
    forall y | y in s[1..]
      ensures rel(s[0], y)
    {
      var k :| 0 <= k < |s[1..]| && s[1..][k] == y;
      assert s[k + 1] == y;
    }
  }

  /** A subsequence taken by `Filter` keeps any pairwise relation. */
  lemma {:induction false} FilterPairwise<T>(s: seq<T>, p: T -> bool, rel: (T, T) -> bool)
    requires Pairwise(s, rel)
    ensures Pairwise(Filter(s, p), rel)
    decreases |s|
  {
    if |s| != 0 {
      PairwiseTail(s, rel);
      FilterPairwise(s[1..], p, rel);
      var rest := Filter(s[1..], p);
      if p(s[0]) {
        var r := [s[0]] + rest;
        assert Filter(s, p) == r;
        forall i, j | 0 <= i < j < |r|
          ensures rel(r[i], r[j])
        {
          assert r[j] == rest[j - 1];
          if i == 0 {
            assert rest[j - 1] in s[1..];
          } else {
            assert r[i] == rest[i - 1];
          }
        }
      }
    }
  }
}

=== FILE: courier.dfy ===
/** The delivery app: a courier's two feeds over `GET /orders/available`,
    the next-step button each order offers, the order detail view, and the
    two status requests it sends. */
module Courier {
  import opened Collections
  import opened Domain
  import opened Server

  /* ---------------- Feeds ---------------- */

  predicate OfferedTo(o: Order, me: Id) {
    o.status == Pending || (o.status == Accepted && o.deliveryId == Some(me))
  }

  /** `getAvailableOrders`: orders nobody holds yet, plus those this courier accepted. */
  function AvailableFeed(feed: seq<Order>, me: Id): (r: seq<Order>)
    ensures forall o | o in r :: o in feed && (o.status == Pending || (o.status == Accepted && o.deliveryId == Some(me)))
    ensures forall o | o in feed && (o.status == Pending || (o.status == Accepted && o.deliveryId == Some(me))) :: o in r
    ensures SubsequenceOf(r, feed)
    ensures forall o | o in feed ::
              multiset(r)[o] == if o.status == Pending || (o.status == Accepted && o.deliveryId == Some(me))
                                then multiset(feed)[o] else 0
  {
    FilterKeepsOrder(feed, (o: Order) => OfferedTo(o, me));
    Filter(feed, (o: Order) => OfferedTo(o, me))
  }

  /** `getMyOrders`: the orders whose courier is this one. */
  function MyOrders(feed: seq<Order>, me: Id): (r: seq<Order>)
    ensures forall o | o in r :: o in feed && o.deliveryId == Some(me)
    ensures forall o | o in feed && o.deliveryId == Some(me) :: o in r
    ensures SubsequenceOf(r, feed)
    ensures forall o | o in feed :: multiset(r)[o] == if o.deliveryId == Some(me) then multiset(feed)[o] else 0
  {
    FilterKeepsOrder(feed, (o: Order) => o.deliveryId == Some(me));
    Filter(feed, (o: Order) => o.deliveryId == Some(me))
  }

  /* ---------------- Actions ---------------- */

  /** What `getOrderActionButtons` renders: a button moving the order to
      `next`, the "completed" badge, or nothing. */
  datatype Action = Advance(next: Status) | Completed | NoAction

  function ActionFor(status: Status): (r: Action)
    ensures r.Advance? <==> status == Lifecycle[1] || status == Lifecycle[2]
    ensures status == Lifecycle[1] ==> r == Advance(Lifecycle[2])
    ensures status == Lifecycle[2] ==> r == Advance(Lifecycle[3])
    ensures r.Completed? <==> status == Lifecycle[3]
  {
    if status == Accepted then Advance(InProgress)
    else if status == InProgress then Advance(Delivered)
    else if status == Delivered then Completed
    else NoAction
  }

  /** The buttons follow the lifecycle: a button is offered exactly for the
      two middle statuses, and it moves the order one step along it. */
  lemma ActionFollowsLifecycle(status: Status)
    ensures ActionFor(status).Advance? <==> status == Accepted || status == InProgress
    ensures ActionFor(status).Advance? ==>
              exists k :: 1 <= k < |Lifecycle| - 1 && Lifecycle[k] == status
                          && Lifecycle[k + 1] == ActionFor(status).next
    ensures ActionFor(status).Completed? <==> status == Lifecycle[|Lifecycle| - 1]
  {
    if status == Accepted {
      assert Lifecycle[1] == status && Lifecycle[2] == InProgress;
    } else if status == InProgress {
      assert Lifecycle[2] == status && Lifecycle[3] == Delivered;
    }
  }

  /** `acceptOrder`: claim for oneself. */
  function ClaimRequest(me: Id): (r: StatusPatch)
    ensures r.status == Accepted
    ensures forall o: Order :: ClaimConflict(o, r) <==> me != 0 && Truthy(o.deliveryId) && o.deliveryId != Some(me)
  {
    StatusPatch(Accepted, Some(me))
  }

  /** `updateOrderStatus`: the new status alone, naming no courier. */
  function AdvanceRequest(status: Status): (r: StatusPatch)
    ensures r.status == status && !Truthy(r.deliveryId)
    ensures forall o: Order :: !ClaimConflict(o, r)
  {
    StatusPatch(status, None)
  }

  /** A claim against the server: it loses exactly when its own id is truthy
      and another courier already holds the order. Otherwise it succeeds and
      the order becomes accepted and this courier's; the courier id 0 is falsy
      to the server, so the stored courier is kept. */
  lemma ClaimAgainstServer(orders: seq<Order>, id: Id, me: Id)
    requires IndexOfOrder(orders, id).Some?
    ensures var o := orders[IndexOfOrder(orders, id).value];
            var r := UpdateStatus(orders, id, ClaimRequest(me));
            && (r.response == Fail(Conflict) <==> me != 0 && Truthy(o.deliveryId) && o.deliveryId != Some(me))
            && (r.response.Ok? <==> !(me != 0 && Truthy(o.deliveryId) && o.deliveryId != Some(me)))
            && (r.response.Ok? ==> r.response.value.status == Accepted)
            && (r.response.Ok? && me != 0 ==> r.response.value.deliveryId == Some(me))
            && (r.response.Ok? && me == 0 ==> r.response.value.deliveryId == o.deliveryId)
  {
  }

  /** An advance can never meet the claim check: on an existing order it
      always succeeds and keeps the courier. */
  lemma AdvanceNeverConflicts(orders: seq<Order>, id: Id, status: Status)
    ensures UpdateStatus(orders, id, AdvanceRequest(status)).response != Fail(Conflict)
    ensures IndexOfOrder(orders, id).Some? ==>
              var r := UpdateStatus(orders, id, AdvanceRequest(status));
              && r.response.Ok?
              && r.response.value.deliveryId == orders[IndexOfOrder(orders, id).value].deliveryId
  {
  }

  /** A won claim puts the order in both of the courier's feeds. */
  lemma ClaimedOrderIsMine(orders: seq<Order>, id: Id, me: Id)
    requires me != 0
    requires UpdateStatus(orders, id, ClaimRequest(me)).response.Ok?
    ensures var r := UpdateStatus(orders, id, ClaimRequest(me));
            && r.response.value in MyOrders(ListAvailable(r.state), me)
            && r.response.value in AvailableFeed(ListAvailable(r.state), me)
  {
  }

  /** Everything in "my orders" is pending or accepted and held by this
      courier: the server feed has already dropped later statuses. */
  lemma MyOrdersAreActive(orders: seq<Order>, me: Id)
    ensures forall o | o in MyOrders(ListAvailable(orders), me) ::
              o in orders && (o.status == Pending || o.status == Accepted) && o.deliveryId == Some(me)
  {
  }

  /** Because the server feed drops `in_progress` orders, the "mark delivered"
      button is never rendered in "my orders". */
  lemma DeliveredButtonNeverInMyOrders(orders: seq<Order>, me: Id)
    ensures forall o | o in MyOrders(ListAvailable(orders), me) ::
              ActionFor(o.status) == Advance(InProgress)
              || ActionFor(o.status) == NoAction
  {
  }

  /** Composed with the server feed, the courier's available list is exactly
      one filter over the whole collection, in collection order. */
  lemma AvailableFeedOverServer(orders: seq<Order>, me: Id)
    ensures AvailableFeed(ListAvailable(orders), me) == Filter(orders, (o: Order) => OfferedTo(o, me))
  {
    FilterTwice(orders, IsOpenForDelivery, (o: Order) => OfferedTo(o, me), (o: Order) => OfferedTo(o, me));
  }

  /* ---------------- Detail view ---------------- */

  /** `viewOrderDetail`: the order from the feed, with the action buttons only
      when this courier holds it; or the "not found" alert. */
  datatype Detail = NotInFeed | Shown(order: Order, actions: Option<Action>)

  function ViewOrderDetail(feed: seq<Order>, id: Id, me: Id): (r: Detail)
    ensures r.NotInFeed? <==> forall j :: 0 <= j < |feed| ==> feed[j].id != id
    ensures r.Shown? ==> r.order in feed && r.order.id == id
    ensures r.Shown? ==> IndexOfOrder(feed, id).Some? && r.order == feed[IndexOfOrder(feed, id).value]
    ensures r.Shown? ==> (r.actions.Some? <==> r.order.deliveryId == Some(me))
    ensures r.Shown? && r.actions.Some? ==> r.actions.value == ActionFor(r.order.status)
  {
    match Find(feed, (o: Order) => o.id == id)
    case None => NotInFeed
    case Some(o) => Shown(o, if o.deliveryId == Some(me) then Some(ActionFor(o.status)) else None)
  }

  /** The detail view also reads the server feed, so it never offers the
      "mark delivered" button either. */
  lemma DeliveredButtonNeverInDetail(orders: seq<Order>, id: Id, me: Id)
    ensures var d := ViewOrderDetail(ListAvailable(orders), id, me);
            d.Shown? && d.actions.Some? ==> d.actions.value != Advance(Delivered)
  {
  }
}

=== FILE: dashboard.dfy ===
/** The store app: the operator's open/closed toggle, the add-product form,
    and the store's own slice of the order feed with its accept button. */
module Dashboard {
  import opened Collections
  import opened Domain
  import opened Server
  import Courier

  /** The placeholders the add-product form sends for empty fields. */
  const DefaultDescription: string := "Sin descripción"
  const DefaultImage: string := "https://via.placeholder.com/300x200?text=Sin+Imagen"

  /** A store is usable by the dashboard when it was loaded and has a truthy id. */
  predicate HasStore(current: Option<Store>) {
    current.Some? && current.value.id != 0
  }

  /* ---------------- Open/closed toggle ---------------- */

  datatype Toggle = ToggleWithoutStore | SendToggle(storeId: Id, isOpen: bool)

  /** `toggleStoreStatus`: without a loaded store nothing is sent; otherwise
      the request asks for the opposite of what the dashboard shows. */
  function ToggleRequest(current: Option<Store>): (r: Toggle)
    ensures r.ToggleWithoutStore? <==> !HasStore(current)
    ensures r.SendToggle? ==> r.storeId == current.value.id && r.isOpen != current.value.isOpen
  {
    if !HasStore(current) then ToggleWithoutStore
    else SendToggle(current.value.id, !current.value.isOpen)
  }

  /** On success the dashboard takes `isOpen` from the server's answer and
      keeps the rest of its store; on failure it keeps its store as it was. */
  function AdoptToggle(current: Store, response: Response<Store>): (r: Store)
    ensures response.Ok? ==> r.isOpen == response.value.isOpen && r.(isOpen := current.isOpen) == current
    ensures response.Fail? ==> r == current
  {
    if response.Ok? then current.(isOpen := response.value.isOpen) else current
  }

  /** The dashboard's store and the server's store collection. */
  datatype Session = Session(local: Store, stores: seq<Store>)

  /** One press of the toggle: request, server handler, adoption of the answer. */
  function PressToggle(s: Session): (r: Session)
    ensures s.local.id == 0 ==> r == s
    ensures IndexOfStore(s.stores, s.local.id).None? ==> r == s
    ensures s.local.id != 0 && IndexOfStore(s.stores, s.local.id).Some? ==>
              var i := IndexOfStore(s.stores, s.local.id).value;
              && r.local == s.local.(isOpen := !s.local.isOpen)
              && r.stores == s.stores[i := s.stores[i].(isOpen := !s.local.isOpen)]
  {
    match ToggleRequest(Some(s.local))
    case ToggleWithoutStore => s
    case SendToggle(id, isOpen) =>
      var served := SetStoreStatus(s.stores, id, isOpen);
      Session(AdoptToggle(s.local, served.response), served.state)
  }

  /** The dashboard shows what the server holds. */
  predicate InSync(s: Session) {
    IndexOfStore(s.stores, s.local.id).Some? && s.stores[IndexOfStore(s.stores, s.local.id).value].isOpen == s.local.isOpen
  }

  /** A toggle keeps the dashboard in step with the server, and two toggles
      restore both the dashboard and the store collection. */
  lemma ToggleTwiceRestores(s: Session)
    requires InSync(s)
    ensures InSync(PressToggle(s))
    ensures PressToggle(PressToggle(s)) == s
  {
  }

  /* ---------------- Add-product form ---------------- */

  /** The form as read: `price` is `None` when `parseFloat` gives NaN. */
  datatype ProductForm = ProductForm(name: string, price: Option<Cents>, description: string, image: string)

  datatype Submission = InvalidForm | SubmitWithoutStore | SendProduct(request: ProductRequest)

  /** `addProduct`: an empty name, an unreadable price or a price that is not
      positive is refused first; then a missing store; otherwise the request
      carries the form with empty description and image replaced by defaults. */
  function AddProduct(form: ProductForm, current: Option<Store>): (r: Submission)
    ensures r.InvalidForm? <==> form.name == "" || form.price.None? || form.price.value <= 0
    ensures r.SubmitWithoutStore? <==> !r.InvalidForm? && !HasStore(current)
    ensures r.SendProduct? ==>
      && r.request.name == form.name && form.price == Some(r.request.price)
      && r.request.storeId == current.value.id
      && (form.description != "" ==> r.request.description == form.description)
      && (form.description == "" ==> r.request.description == DefaultDescription)
      && (form.image != "" ==> r.request.image == form.image)
      && (form.image == "" ==> r.request.image == DefaultImage)
  {
    if form.name == "" || form.price.None? || form.price.value <= 0 then InvalidForm
    else if !HasStore(current) then SubmitWithoutStore
    else
      SendProduct(ProductRequest(
        form.name, form.price.value,
        if form.description == "" then DefaultDescription else form.description,
        if form.image == "" then DefaultImage else form.image,
        current.value.id))
  }

  /** A product sent from the form lands at the end of its store's listing
      with a non-empty name, description and image and a positive price. */
  lemma AddedProductIsListed(form: ProductForm, current: Option<Store>, products: seq<Product>,
                             id: Id, createdAt: string)
    requires AddProduct(form, current).SendProduct?
    ensures var req := AddProduct(form, current).request;
            var r := CreateProduct(products, req, id, createdAt);
            var p := r.response.value;
            && ListProducts(r.state, current.value.id) == ListProducts(products, current.value.id) + [p]
            && p.name != "" && p.price > 0 && p.description != "" && p.image != ""
  {
    var req := AddProduct(form, current).request;
    CreatedProductIsListed(products, req, id, createdAt, current.value.id);
  }

  /* ---------------- The store's orders ---------------- */

  /** `loadOrders`: the feed's orders for the current store. Without a
      current store the filter's callback throws on the first order, and the
      caught error leaves the list unrendered (`None`); an empty feed never
      calls it and renders empty. */
  function StoreOrders(feed: seq<Order>, current: Option<Store>): (r: Option<seq<Order>>)
    ensures r.None? <==> current.None? && |feed| > 0
    ensures r.Some? && current.None? ==> r.value == []
    ensures r.Some? && current.Some? ==>
              && (forall o | o in r.value :: o in feed && o.storeId == current.value.id)
              && (forall o | o in feed && o.storeId == current.value.id :: o in r.value)
              && SubsequenceOf(r.value, feed)
              && (forall o | o in feed ::
                    multiset(r.value)[o] == if o.storeId == current.value.id then multiset(feed)[o] else 0)
  {
    if current.None? then (if |feed| == 0 then Some([]) else None)
    else
      FilterKeepsOrder(feed, (o: Order) => o.storeId == current.value.id);
      Some(Filter(feed, (o: Order) => o.storeId == current.value.id))
  }

  /** `renderOrders` shows the accept button only on pending orders. */
  function AcceptOffered(o: Order): (r: bool)
    ensures r <==> o.status == Lifecycle[0]
  {
    o.status == Pending
  }

  /** The store's accept: status `accepted` and no courier. */
  function StoreAcceptRequest(): (r: StatusPatch)
    ensures r.status == Accepted && !Truthy(r.deliveryId)
    ensures forall o: Order :: !ClaimConflict(o, r)
  {
    StatusPatch(Accepted, None)
  }

  /** Over the server feed, the store sees exactly its pending and accepted orders. */
  lemma StoreSeesItsOpenOrders(orders: seq<Order>, store: Store)
    ensures StoreOrders(ListAvailable(orders), Some(store)).Some?
    ensures forall o | o in StoreOrders(ListAvailable(orders), Some(store)).value ::
              o in orders && o.storeId == store.id && (o.status == Pending || o.status == Accepted)
    ensures forall o | o in orders && o.storeId == store.id && (o.status == Pending || o.status == Accepted) ::
              o in StoreOrders(ListAvailable(orders), Some(store)).value
  {
  }

  /** The store's accept names no courier, so the claim check never applies:
      it always succeeds on an existing order and keeps its courier. */
  lemma StoreAcceptAlwaysApplies(orders: seq<Order>, id: Id)
    requires IndexOfOrder(orders, id).Some?
    ensures var r := UpdateStatus(orders, id, StoreAcceptRequest());
            && r.response.Ok?
            && r.response.value.status == Accepted
            && r.response.value.deliveryId == orders[IndexOfOrder(orders, id).value].deliveryId
  {
  }

  /** A pending, unclaimed order the store accepts is offered to every
      courier before, and to none after: it is accepted with no courier, and
      the courier feed only keeps accepted orders that are the viewer's own. */
  lemma StoreAcceptHidesOrderFromCouriers(orders: seq<Order>, id: Id, me: Id)
    requires IndexOfOrder(orders, id).Some?
    requires AcceptOffered(orders[IndexOfOrder(orders, id).value])
    requires orders[IndexOfOrder(orders, id).value].deliveryId == None
    ensures orders[IndexOfOrder(orders, id).value] in Courier.AvailableFeed(ListAvailable(orders), me)
    ensures var r := UpdateStatus(orders, id, StoreAcceptRequest());
            && r.response.value !in Courier.AvailableFeed(ListAvailable(r.state), me)
            && r.response.value !in Courier.MyOrders(ListAvailable(r.state), me)
  {
  }
}

=== FILE: domain.dfy ===
/** The records the marketplace keeps in its four collections (users,
    stores, products, orders) and the vocabulary all three clients share. */
module Domain {
  import opened Collections

  /** Record ids: `Date.now()` values for created records, small integers for seeded ones. */
  type Id = int

  /** Money in integer cents; the apps' floating-point prices are not modelled. */
  type Cents = int

  /** Order statuses travel as free-form strings: the server stores whatever it is sent. */
  type Status = string

  const Pending: Status := "pending"
  const Accepted: Status := "accepted"
  const InProgress: Status := "in_progress"
  const Delivered: Status := "delivered"

  /** The four statuses in the order the clients move an order through them. */
  const Lifecycle: seq<Status> := [Pending, Accepted, InProgress, Delivered]

  /** The Spanish labels every client shows, position by position with `Lifecycle`. */
  const StatusLabels: seq<string> := ["Pendiente", "Aceptado", "En camino", "Entregado"]

  datatype Role = ConsumerRole | StoreRole | DeliveryRole

  /** `storeId` is present only on store operators' accounts. */
  datatype User = User(id: Id, name: string, email: string, password: string, role: Role, storeId: Option<Id>)

  datatype Store = Store(id: Id, name: string, description: string, image: string,
                         rating: int, deliveryTime: string, isOpen: bool)

  datatype Product = Product(id: Id, name: string, price: Cents, description: string,
                             image: string, storeId: Id, createdAt: string)

  /** One line of an order: a copy of the product's id, name and price taken at
      checkout, so later changes to the product collection never reach it. */
  datatype OrderLine = OrderLine(id: Id, name: string, price: Cents, quantity: int)

  /** `deliveryId` is `None` (JSON null) until a courier claims the order. */
  datatype Order = Order(id: Id, userId: Id, storeId: Id, products: seq<OrderLine>, total: Cents,
                         address: string, paymentMethod: string, status: Status,
                         createdAt: string, deliveryId: Option<Id>)

  /** JavaScript truthiness of a nullable numeric id: null, absent and 0 are all falsy. */
  predicate Truthy(d: Option<Id>) {
    d.Some? && d.value != 0
  }

  /** The sum of price times quantity over an order's lines. */
  function LineTotal(lines: seq<OrderLine>): Cents
    decreases |lines|
  {
    if |lines| == 0 then 0 else lines[0].price * lines[0].quantity + LineTotal(lines[1..])
  }

  /** An order's total agrees with its lines: the sum of price times quantity.
      The server stores the total it is sent and does not check it. */
  predicate TotalConsistent(o: Order) {
    o.total == LineTotal(o.products)
  }

  /** `getStatusText`, identical in the consumer, store and delivery apps: a known
      status gets its label, anything else is shown as it is. */
  function StatusText(s: Status): (text: string)
    ensures text == s <==> s !in Lifecycle
    ensures forall i :: 0 <= i < |Lifecycle| && s == Lifecycle[i] ==> text == StatusLabels[i]
  {
    if s == Pending then "Pendiente"
    else if s == Accepted then "Aceptado"
    else if s == InProgress then "En camino"
    else if s == Delivered then "Entregado"
    else s
  }
}

=== FILE: server.dfy ===
/** The HTTP handlers of the marketplace service. Each handler is a pure
    read-modify-write over one in-memory collection: it takes the request
    fields and the collection as loaded, and returns the response together
    with the collection as it would be saved. */
module Server {
  import opened Collections
  import opened Domain

  /** The failures a handler answers with: 404, 400 (claim lost) and 401. */
  datatype Failure = NotFound | Conflict | Unauthorized

  datatype Response<+T> = Ok(value: T) | Fail(failure: Failure)

  /** A handler's answer and the collection it leaves behind. */
  datatype Handled<+T, +C> = Handled(response: Response<T>, state: C)

  /* ---------------- Request bodies ---------------- */

  /** Body of `POST /products`, after `parseFloat`/`parseInt` of price and store id. */
  datatype ProductRequest = ProductRequest(name: string, price: Cents, description: string,
                                           image: string, storeId: Id)

  /** Body of `POST /orders`, after `parseInt`/`parseFloat` of the ids and total. */
  datatype OrderRequest = OrderRequest(userId: Id, storeId: Id, products: seq<OrderLine>,
                                       total: Cents, address: string, paymentMethod: string)

  /** Body of `PATCH /orders/:id/status`; `deliveryId` is `None` when the key is absent. */
  datatype StatusPatch = StatusPatch(status: Status, deliveryId: Option<Id>)

  /* ---------------- Authentication ---------------- */

  /** The user record sent back on login: it has no password field at all. */
  datatype UserView = UserView(id: Id, name: string, email: string, role: Role, storeId: Option<Id>)

  predicate Matches(u: User, email: string, password: string, role: Role) {
    u.email == email && u.password == password && u.role == role
  }

  /** What a login response may reveal about the matched user: its public
      fields, and `storeId` exactly when the stored value is truthy. */
  predicate Reveals(u: User, v: UserView) {
    && v.id == u.id && v.name == u.name && v.email == u.email && v.role == u.role
    && (v.storeId.Some? <==> Truthy(u.storeId))
    && (v.storeId.Some? ==> v.storeId == u.storeId)
  }

  function ViewOf(u: User): UserView {
    UserView(u.id, u.name, u.email, u.role, if Truthy(u.storeId) then u.storeId else None)
  }

  /** The position of the first user matching all three credentials (`find`). */
  function IndexOfLogin(users: seq<User>, email: string, password: string, role: Role): (r: Option<nat>)
    ensures r.Some? ==> r.value < |users| && Matches(users[r.value], email, password, role)
    ensures r.Some? ==> forall j :: 0 <= j < r.value ==> !Matches(users[j], email, password, role)
    ensures r.None? <==> forall j :: 0 <= j < |users| ==> !Matches(users[j], email, password, role)
  {
    FindIndex(users, (u: User) => Matches(u, email, password, role))
  }

  /** `POST /auth/login`: the first user matching all three credentials, or 401.
      Read-only: the user collection is never written. */
  function Login(users: seq<User>, email: string, password: string, role: Role): (r: Response<UserView>)
    ensures r.Ok? <==> IndexOfLogin(users, email, password, role).Some?
    ensures r.Fail? ==> r.failure == Unauthorized
    ensures r.Ok? ==> Reveals(users[IndexOfLogin(users, email, password, role).value], r.value)
  {
    match IndexOfLogin(users, email, password, role)
    case None => Fail(Unauthorized)
    case Some(i) => Ok(ViewOf(users[i]))
  }

  /* ---------------- Stores ---------------- */

  /** The position of the first store with this id (`findIndex`). */
  function IndexOfStore(stores: seq<Store>, id: Id): (r: Option<nat>)
    ensures r.Some? ==> r.value < |stores| && stores[r.value].id == id
    ensures r.Some? ==> forall j :: 0 <= j < r.value ==> stores[j].id != id
    ensures r.None? <==> forall j :: 0 <= j < |stores| ==> stores[j].id != id
  {
    FindIndex(stores, (s: Store) => s.id == id)
  }

  /** `POST /stores/:id/status`: sets `isOpen` of the first store with that id. */
  function SetStoreStatus(stores: seq<Store>, id: Id, isOpen: bool): (r: Handled<Store, seq<Store>>)
    ensures |r.state| == |stores|
    ensures IndexOfStore(stores, id).None? ==> r.response == Fail(NotFound) && r.state == stores
    ensures IndexOfStore(stores, id).Some? ==>
      var i := IndexOfStore(stores, id).value;
      && r.response == Ok(r.state[i])
      && r.state[i].isOpen == isOpen
      && r.state[i] == stores[i].(isOpen := r.state[i].isOpen)
      && (forall j :: 0 <= j < |stores| && j != i ==> r.state[j] == stores[j])
  {
    match IndexOfStore(stores, id)
    case None => Handled(Fail(NotFound), stores)
    case Some(i) =>
      var updated := stores[i := stores[i].(isOpen := isOpen)];
      Handled(Ok(updated[i]), updated)
  }

  /* ---------------- Products ---------------- */

  /** `GET /products/:storeId`: the products of one store, in collection order. */
  function ListProducts(products: seq<Product>, storeId: Id): (r: seq<Product>)
    ensures forall p | p in r :: p in products && p.storeId == storeId
    ensures forall p | p in products && p.storeId == storeId :: p in r
    ensures SubsequenceOf(r, products)
    ensures forall p | p in products :: multiset(r)[p] == if p.storeId == storeId then multiset(products)[p] else 0
  {
    FilterKeepsOrder(products, (p: Product) => p.storeId == storeId);
    Filter(products, (p: Product) => p.storeId == storeId)
  }

  /** `POST /products`: appends a product built from the request; `id` and
      `createdAt` are the clock readings the handler takes. */
  function CreateProduct(products: seq<Product>, req: ProductRequest, id: Id, createdAt: string)
    : (r: Handled<Product, seq<Product>>)
    ensures r.response.Ok? && r.state == products + [r.response.value]
    ensures r.response.value == Product(id, req.name, req.price, req.description, req.image,
                                        req.storeId, createdAt)
  {
    var p := Product(id, req.name, req.price, req.description, req.image, req.storeId, createdAt);
    Handled(Ok(p), products + [p])
  }

  /** Creating a product adds it to its own store's listing, at the end, and
      leaves every other store's listing as it was. */
  lemma CreatedProductIsListed(products: seq<Product>, req: ProductRequest, id: Id, createdAt: string, storeId: Id)
    ensures var r := CreateProduct(products, req, id, createdAt);
            ListProducts(r.state, storeId)
            == ListProducts(products, storeId) + (if req.storeId == storeId then [r.response.value] else [])
  {
    var r := CreateProduct(products, req, id, createdAt);
    FilterConcat(products, [r.response.value], (p: Product) => p.storeId == storeId);
  }

  /* ---------------- Orders ---------------- */

  /** The position of the first order with this id (`findIndex`). */
  function IndexOfOrder(orders: seq<Order>, id: Id): (r: Option<nat>)
    ensures r.Some? ==> r.value < |orders| && orders[r.value].id == id
    ensures r.Some? ==> forall j :: 0 <= j < r.value ==> orders[j].id != id
    ensures r.None? <==> forall j :: 0 <= j < |orders| ==> orders[j].id != id
  {
    FindIndex(orders, (o: Order) => o.id == id)
  }

  /** `POST /orders`: appends a new pending, unclaimed order holding the
      request's lines and total exactly as sent. */
  function CreateOrder(orders: seq<Order>, req: OrderRequest, id: Id, createdAt: string)
    : (r: Handled<Order, seq<Order>>)
    ensures r.response.Ok? && r.state == orders + [r.response.value]
    ensures var o := r.response.value;
            && o.id == id && o.createdAt == createdAt
            && o.userId == req.userId && o.storeId == req.storeId
            && o.products == req.products && o.total == req.total
            && o.address == req.address && o.paymentMethod == req.paymentMethod
            && o.status == Pending && o.deliveryId == None
  {
    var o := Order(id, req.userId, req.storeId, req.products, req.total, req.address,
                   req.paymentMethod, Pending, createdAt, None);
    Handled(Ok(o), orders + [o])
  }

  /** `GET /orders/user/:userId`: one consumer's orders, in collection order. */
  function ListByUser(orders: seq<Order>, userId: Id): (r: seq<Order>)
    ensures forall o | o in r :: o in orders && o.userId == userId
    ensures forall o | o in orders && o.userId == userId :: o in r
    ensures SubsequenceOf(r, orders)
    ensures forall o | o in orders :: multiset(r)[o] == if o.userId == userId then multiset(orders)[o] else 0
  {
    FilterKeepsOrder(orders, (o: Order) => o.userId == userId);
    Filter(orders, (o: Order) => o.userId == userId)
  }

  predicate IsOpenForDelivery(o: Order) {
    o.status == Pending || o.status == Accepted
  }

  /** `GET /orders/available`: the pending and accepted orders, in collection order. */
  function ListAvailable(orders: seq<Order>): (r: seq<Order>)
    ensures forall o | o in r :: o in orders && (o.status == Pending || o.status == Accepted)
    ensures forall o | o in orders && (o.status == Pending || o.status == Accepted) :: o in r
    ensures SubsequenceOf(r, orders)
    ensures forall o | o in orders ::
              multiset(r)[o] == if o.status == Pending || o.status == Accepted then multiset(orders)[o] else 0
  {
    FilterKeepsOrder(orders, IsOpenForDelivery);
    Filter(orders, IsOpenForDelivery)
  }

  /** The claim check: a request to accept, naming a courier, against an order
      already held by a different courier. */
  predicate ClaimConflict(o: Order, patch: StatusPatch) {
    && patch.status == Accepted
    && Truthy(patch.deliveryId)
    && Truthy(o.deliveryId)
    && o.deliveryId.value != patch.deliveryId.value
  }

  /** `b` is `a` with at most its status and courier changed. */
  predicate SameOrderApartFromProgress(a: Order, b: Order) {
    && a.id == b.id && a.userId == b.userId && a.storeId == b.storeId
    && a.products == b.products && a.total == b.total
    && a.address == b.address && a.paymentMethod == b.paymentMethod
    && a.createdAt == b.createdAt
  }

  /** `PATCH /orders/:id/status`. A missing order is 404 and a lost claim is
      400, both leaving the collection as it was. Otherwise the status is set
      to whatever was requested, whatever it was before, and a truthy
      `deliveryId` overwrites the stored one. No other order changes. */
  function UpdateStatus(orders: seq<Order>, id: Id, patch: StatusPatch): (r: Handled<Order, seq<Order>>)
    ensures |r.state| == |orders|
    ensures IndexOfOrder(orders, id).None? ==> r.response == Fail(NotFound) && r.state == orders
    ensures IndexOfOrder(orders, id).Some? ==>
      var i := IndexOfOrder(orders, id).value;
      && (ClaimConflict(orders[i], patch) ==> r.response == Fail(Conflict) && r.state == orders)
      && (!ClaimConflict(orders[i], patch) ==>
            && r.response == Ok(r.state[i])
            && r.state[i].status == patch.status
            && r.state[i].deliveryId == (if Truthy(patch.deliveryId) then patch.deliveryId else orders[i].deliveryId)
            && SameOrderApartFromProgress(orders[i], r.state[i])
            && (forall j :: 0 <= j < |orders| && j != i ==> r.state[j] == orders[j]))
  {
    match IndexOfOrder(orders, id)
    case None => Handled(Fail(NotFound), orders)
    case Some(i) =>
      if ClaimConflict(orders[i], patch) then Handled(Fail(Conflict), orders)
      else
        var courier := if Truthy(patch.deliveryId) then patch.deliveryId else orders[i].deliveryId;
        var updated := orders[i := orders[i].(status := patch.status, deliveryId := courier)];
        Handled(Ok(updated[i]), updated)
  }

  /* ---------------- Lifecycle properties ---------------- */

  /** A new order shows up, last, in its consumer's list, with the lines and
      total as sent, pending and unclaimed; other consumers' lists are unchanged. */
  lemma CreatedOrderIsListed(orders: seq<Order>, req: OrderRequest, id: Id, createdAt: string, userId: Id)
    ensures var r := CreateOrder(orders, req, id, createdAt);
            ListByUser(r.state, userId)
            == ListByUser(orders, userId) + (if req.userId == userId then [r.response.value] else [])
  {
    var r := CreateOrder(orders, req, id, createdAt);
    FilterConcat(orders, [r.response.value], (o: Order) => o.userId == userId);
  }

  /** A new order enters the available feed, at the end. */
  lemma CreatedOrderIsAvailable(orders: seq<Order>, req: OrderRequest, id: Id, createdAt: string)
    ensures var r := CreateOrder(orders, req, id, createdAt);
            ListAvailable(r.state) == ListAvailable(orders) + [r.response.value]
  {
    var r := CreateOrder(orders, req, id, createdAt);
    FilterConcat(orders, [r.response.value], IsOpenForDelivery);
  }

  /** First claim wins: courier `a` claims an unclaimed order, then a different
      courier `b` is refused and the order stays with `a`. */
  lemma RivalClaimIsRefused(orders: seq<Order>, id: Id, a: Id, b: Id)
    requires IndexOfOrder(orders, id).Some?
    requires !Truthy(orders[IndexOfOrder(orders, id).value].deliveryId)
    requires a != 0 && b != 0 && a != b
    ensures var first := UpdateStatus(orders, id, StatusPatch(Accepted, Some(a)));
            && first.response.Ok?
            && first.response.value.deliveryId == Some(a)
            && var second := UpdateStatus(first.state, id, StatusPatch(Accepted, Some(b)));
               && second.response == Fail(Conflict)
               && second.state == first.state
  {
  }

  /** Re-claiming an order one already holds succeeds and changes nothing. */
  lemma ReclaimIsIdempotent(orders: seq<Order>, id: Id, a: Id)
    requires IndexOfOrder(orders, id).Some?
    requires orders[IndexOfOrder(orders, id).value].status == Accepted
    requires orders[IndexOfOrder(orders, id).value].deliveryId == Some(a)
    requires a != 0
    ensures var r := UpdateStatus(orders, id, StatusPatch(Accepted, Some(a)));
            r.response.Ok? && r.state == orders
  {
  }

  /** A status change that names no courier never hits the claim check: it
      succeeds on any existing order, whatever its status and courier, and
      keeps the courier. */
  lemma BareStatusChangeAlwaysApplies(orders: seq<Order>, id: Id, status: Status)
    requires IndexOfOrder(orders, id).Some?
    ensures var i := IndexOfOrder(orders, id).value;
            var r := UpdateStatus(orders, id, StatusPatch(status, None));
            && r.response.Ok?
            && r.response.value.status == status
            && r.response.value.deliveryId == orders[i].deliveryId
  {
  }

  /** The claim check only ever refuses a request that names a courier, so a
      holder's claim on its own order is never lost to the check. */
  lemma ConflictOnlyForAnotherCourier(orders: seq<Order>, id: Id, patch: StatusPatch)
    ensures UpdateStatus(orders, id, patch).response == Fail(Conflict) <==>
            && IndexOfOrder(orders, id).Some?
            && patch.status == Accepted
            && Truthy(patch.deliveryId)
            && Truthy(orders[IndexOfOrder(orders, id).value].deliveryId)
            && orders[IndexOfOrder(orders, id).value].deliveryId != patch.deliveryId
  {
  }

  /** The claim check only guards `accepted` requests: any other status sent
      with a truthy courier id reassigns an order another courier holds. */
  lemma CourierReassignedOutsideClaim(orders: seq<Order>, id: Id, status: Status, b: Id)
    requires IndexOfOrder(orders, id).Some?
    requires status != Accepted && b != 0
    ensures var r := UpdateStatus(orders, id, StatusPatch(status, Some(b)));
            && r.response.Ok?
            && r.response.value.deliveryId == Some(b)
            && r.response.value.status == status
  {
  }
}
